=== FILE: README.md ===
# cycleLyft training-plan core, modelled in Dafny

cycleLyft is a strength-training planner. A user fills in a three-step profile form. The
first-plan endpoint (`POST /api/roadmap`) then asks an AI model for a plan built from the
profile and a goal. Later, the revision endpoint (`POST /api/roadmap/fix`) asks for a revised
plan from:

- the profile;
- the active plan;
- the last fourteen days of workout logs;
- an issue the user describes.

Both endpoints clean the model's free-text reply before handing it to `JSON.parse`. The
revision endpoint also cuts the text down to the run from the first `{` to the last `}`.
Confirming a proposed plan on the plan or revision page deactivates every plan row of the user
and inserts the new plan as the active one. The revision page stores the goal of the plan it
replaces when the user has exactly one active plan and its goal is not empty; otherwise it stores
the issue text as the goal.

The model is functional: every table is an immutable sequence of rows, every handler a pure
function. Everything outside the program becomes a parameter:

- the signed-in user (`auth`, `None` when there is none);
- the AI call (`ai`, a function from prompt ingredients to an `AiOutcome`);
- `JSON.parse` (`parse`, a function from text to `Option<J>`);
- the outcome of each database write (`WriteResult`);
- the fourteen-days-ago instant (`cutoff`);
- the date formatting (`dateLabel`).

Files, one module each:

| file | module | models |
|---|---|---|
| optional.dfy | Optional | `Option`; `.single()`; filtering by a predicate |
| text.dfy | Text | JavaScript `trim`, global `replace` of a fence, `indexOf`/`lastIndexOf`, `substring` with swapped bounds, `join`/`split` |
| roadmap_types.dfy | RoadmapTypes | the plan data type; the "total sessions" figure |
| store.dfy | Store | the `users`, `roadmaps` and `workout_log` tables and the queries run against them |
| http.dfy | Http | JSON responses, the AI outcome, and how a page receives a response |
| reply_extraction.dfy | ReplyExtraction | reply cleaning and brace slicing |
| fix_route.dfy | FixRoute | the revision endpoint and its performance summary |
| plan_route.dfy | PlanRoute | the first-plan endpoint |
| activation.dfy | Activation | deactivate-then-insert on the `roadmaps` table |
| fix_page.dfy | FixPage | the revision page's generate and confirm handlers |
| plan_page.dfy | PlanPage | the plan page's generate and confirm handlers |
| profile_form.dfy | ProfileForm | the three-step form and the profile upsert |
| journey.dfy | Journey | properties of the path form → first plan → revision |

Facts about the code that the model keeps:

- The code checks nothing about the parsed reply, so the routes are generic in the parsed type
  `J`. Nothing relates the parsed value to `RoadmapData`.
- The update at app/plan/page.tsx:62-65 and app/fix/page.tsx:68-71 carries no `is_active`
  filter: it sets `is_active = false` on every row of the user. `Activation.Deactivate` does the
  same.
- The write errors of the deactivation update are not checked by the code. `Activation.Activate`
  still takes the update's outcome, so that the consequences of a failed update can be stated.
- When a reply's last `}` comes before its first `{`, the revision route does not refuse it.
  `substring` swaps its bounds and hands the brace-free text between the two to `JSON.parse`.
  `ReplyExtraction.SliceBraces` models this as written.

## Model

| member | source | states |
|---|---|---|
| Text.Trim | app/api/roadmap/fix/route.ts:138 | the result has no JavaScript white space at either end, is the input with only white space removed from the two ends, and leaves already trimmed text unchanged |
| Text.StripBackticksRemovesAll | app/api/roadmap/fix/route.ts:137 | after removing every "```" together with one line feed after it, no "```" is left anywhere |
| Text.StripFenceKeepsPrefix | app/api/roadmap/route.ts:94-95 | fence removal works left to right: a prefix in which no fence starts is kept as is in front of the stripped rest |
| Text.Substring | app/api/roadmap/fix/route.ts:152 | `substring` always returns a contiguous piece of the text; with ordered in-range bounds it is exactly the text between them |
| Text.SubstringSwaps | app/api/roadmap/fix/route.ts:152 | swapping the two bounds gives the same piece |
| Text.StripFence | app/api/roadmap/fix/route.ts:136-137 | the global, leftmost, non-overlapping removal of a fence together with one line feed after it never lengthens the text |
| Text.StripFenceIdentity | app/api/roadmap/fix/route.ts:136-137 | text without the fence is left unchanged |
| Text.IndexOf | app/api/roadmap/fix/route.ts:141 | `None` exactly when the character is absent; otherwise the index of its first occurrence |
| Text.LastIndexOf | app/api/roadmap/fix/route.ts:142 | `None` exactly when the character is absent; otherwise the index of its last occurrence |
| Text.NatToString | app/api/roadmap/fix/route.ts:54 | a non-negative number renders as decimal digits without leading zeros whose value is the number |
| Text.IntToString | app/api/roadmap/fix/route.ts:54 | the first character is a minus sign exactly when the number is negative; every other character is a digit, and the digits' value is the number's magnitude |
| Text.SplitJoin | app/api/roadmap/fix/route.ts:55 | joining lines that contain no line feed with "\n" (`Text.Join`, the `.join('\n')` of line 55) and splitting at "\n" gives the lines back |
| Optional.Single | app/api/roadmap/fix/route.ts:16-20 | `.single()` yields a row exactly when one row matches, and then that row |
| Optional.Filter | app/api/roadmap/fix/route.ts:16-19 | `.eq(..)` filters keep exactly the matching rows: every kept row is one of the table's rows and matches, and every matching row is kept |
| Optional.FilterMultiplicity | app/api/roadmap/fix/route.ts:16-20 | every matching row is kept as often as it occurs and every other row is dropped, so identical rows still count separately for `.single()` (the order is stated by `FilterConcat`) |
| Optional.FilterConcat | app/api/roadmap/fix/route.ts:25-30 | filtering distributes over concatenation of tables |
| Store.ProfileOf | app/api/roadmap/fix/route.ts:16-22 | the profile is found exactly when one `users` row has the user's id, and it is that row |
| Store.DuplicateActiveRowsHideThePlan | app/api/roadmap/fix/route.ts:25-34 | two identical active rows of a user are two matches, so `.single()` finds no active plan |
| Store.ActiveRoadmapOf | app/api/roadmap/fix/route.ts:25-34 | the active plan is found exactly when the user has exactly one active row, and it is such a row |
| Store.RecentLogs | app/api/roadmap/fix/route.ts:40-45 | exactly the user's logs from the cutoff on, as a permutation of them, newest first |
| ReplyExtraction.Clean | app/api/roadmap/fix/route.ts:134-138 | the cleaned reply has no "```" and no surrounding white space |
| ReplyExtraction.CleanFixedPoint | app/api/roadmap/route.ts:93-96 | text without "```" and without surrounding white space is cleaned to itself |
| ReplyExtraction.CleanIdempotent | app/api/roadmap/route.ts:93-96 | cleaning a cleaned reply changes nothing |
| ReplyExtraction.CleanFencedReply | app/api/roadmap/route.ts:93-96 | a reply "```json\n<body>\n```" cleans to exactly its body, for every body without "```" and surrounding white space |
| ReplyExtraction.SliceBraces | app/api/roadmap/fix/route.ts:140-152 | refused exactly when a brace kind is missing; otherwise a slice of the text, running from the first `{` to the last `}` with nothing braced dropped when a `{` precedes a `}`, brace-free otherwise |
| ReplyExtraction.Extract | app/api/roadmap/fix/route.ts:134-152 | the extracted text contains no "```", and runs from `{` to `}` when the cleaned reply has a `{` before a `}` |
| ReplyExtraction.ExtractIdempotent | app/api/roadmap/fix/route.ts:134-152 | extracting again from extracted text returns it unchanged if it runs from `{` to `}`, and refuses it if it is the brace-free text of a swapped slice |
| FixRoute.LogLines | app/api/roadmap/fix/route.ts:49-54 | one line per log, in the logs' order, each the template of line 54 as `FixRoute.LogLine` writes it |
| FixRoute.PerformanceSummary | app/api/roadmap/fix/route.ts:48-56 | the summary is the "no records" text exactly when there are no recent logs |
| FixRoute.SummaryHasOneLinePerLog | app/api/roadmap/fix/route.ts:48-56 | a non-empty summary splits into one line per log, in the logs' order |
| FixRoute.Answer | app/api/roadmap/fix/route.ts:120-167 | a throwing AI call gives 500, a missing or empty reply 501, a reply without both braces 500 "Invalid response format", and otherwise the extracted text is parsed: 200 with the value, or 500 |
| FixRoute.Handle | app/api/roadmap/fix/route.ts:7-168 | 401, then 404 for no profile, then 404 for no single active plan, without calling the AI; otherwise the prompt carries the profile, the active plan's goal and plan, the recent-log summary and the issue, and the answer is handled as `Answer` says |
| FixRoute.HandleStatuses | app/api/roadmap/fix/route.ts:13-166 | every response has status 200, 401, 404, 500 or 501 |
| FixRoute.HandleSuccess | app/api/roadmap/fix/route.ts:152-156 | a 200 carries what `JSON.parse` made of text without "```" that runs from `{` to `}` or holds no brace |
| PlanRoute.Answer | app/api/roadmap/route.ts:79-122 | a throwing AI call gives 500, a missing or empty reply 501; otherwise the cleaned reply is parsed: 200 with the value, or 500 |
| PlanRoute.Handle | app/api/roadmap/route.ts:8-123 | 401, then 404 for no profile, without calling the AI; otherwise the prompt carries the profile and the goal, and the answer is handled as `Answer` says |
| PlanRoute.HandleStatuses | app/api/roadmap/route.ts:14-121 | every response has status 200, 401, 404, 500 or 501 |
| PlanRoute.FencedReplyParsesBody | app/api/roadmap/route.ts:85-117 | a fenced reply reaches `JSON.parse` as exactly the fenced body |
| PlanRoute.ProseReachesParser | app/api/roadmap/route.ts:93-98 | without brace slicing, a cleaned reply with prose around its braces reaches the parser as different text from what the revision route would parse |
| Http.UsableText | app/api/roadmap/fix/route.ts:127-131 | the route goes on exactly when the reply text is present and not empty, and goes on with that text |
| Http.ParseAnswer | app/api/roadmap/fix/route.ts:154-166 | 200 with the parsed value exactly when parsing succeeds, 500 "Failed to generate roadmap" otherwise |
| Http.ReceivePlan | app/fix/page.tsx:26-40 | a failed request or a non-ok status leaves the shown plan as it was; an ok response replaces it with the body's data |
| RoadmapTypes.TotalSessionsCountsDays | app/plan/page.tsx:140 | `RoadmapTypes.TotalSessions` is the displayed product; for a plan listing `totalWeeks` weeks of `frequencyPerWeek` days, the displayed total equals the number of listed days |
| RoadmapTypes.TotalSessionsIsNotChecked | app/fix/page.tsx:139 | the displayed total is not checked against the listed days: one listed day can be shown as three sessions |
| Activation.Deactivate | app/plan/page.tsx:62-65 | every row of the user, and only those, ends with `is_active` false; nothing else in any row changes |
| Activation.DeactivateLeavesNoActive | app/plan/page.tsx:62-65 | after deactivation the user has no active row |
| Activation.Activate | app/plan/page.tsx:61-75 | the other users' rows are unchanged, the user's earlier rows are inactive when the update was written, and a written insert appends the new active row `Activation.NewRecord`, the insert object of app/fix/page.tsx:76-81 and app/plan/page.tsx:70-75 |
| Activation.ActivateLeavesOneActive | app/plan/page.tsx:61-75 | after both writes the user's single active row is the new one |
| Activation.FailedInsertLeavesNoActive | app/plan/page.tsx:68-80 | when the insert fails after the update, the user is left without an active plan |
| Activation.FailedUpdateKeepsOldActive | app/plan/page.tsx:62-75 | when the ignored update fails, the old active rows stay active next to the new one |
| Activation.ActivateActiveRows | app/plan/page.tsx:61-80 | after a written update, the new row is the user's single active plan when the insert was written, and the user has no active row when it failed |
| Activation.DeactivateKeepsOthersActive | app/plan/page.tsx:62-65 | deactivating one user's rows leaves every other user's active rows as they were |
| Activation.ActivateKeepsOthersActive | app/fix/page.tsx:68-81 | activation never changes another user's active rows |
| Activation.ActivatePreservesAtMostOneActive | app/fix/page.tsx:67-81 | a fully written activation keeps "at most one active plan per user" |
| Activation.FailedUpdateBreaksAtMostOneActive | app/fix/page.tsx:68-71 | a failed, unchecked update can leave a user with two active plans |
| FixPage.Generate | app/fix/page.tsx:21-44 | an empty issue sends nothing and changes nothing; otherwise the issue is sent and the answer taken in as `ReceivePlan` says |
| FixPage.CarriedGoal | app/fix/page.tsx:60-78 | the new row's goal is the current active plan's goal when there is one and it is not empty, else the issue |
| FixPage.Confirm | app/fix/page.tsx:46-96 | nothing without a plan or a user; otherwise other users' rows are kept, the user's old rows are deactivated, with nothing but `is_active` changed, when the update was written and left as they were when it failed, and the reported save is exactly a written insert of the plan under the carried goal; when the update was written as well, that row is then the single active plan |
| PlanPage.Generate | app/plan/page.tsx:20-45 | an empty goal sends nothing and changes nothing; otherwise the goal is sent and the answer taken in as `ReceivePlan` says |
| PlanPage.Confirm | app/plan/page.tsx:47-91 | as the revision page, with the typed goal as the new row's goal |
| ProfileForm.Initial | app/form/page.tsx:33-43 | the form starts at step 1 with every field empty |
| ProfileForm.InputChange | app/form/page.tsx:50-52 | exactly the named field takes the new value; the other fields and the step are unchanged |
| ProfileForm.Next | app/form/page.tsx:54-58 | the step stays in 1..3, does not move at step 3, and `Back` undoes it below step 3 |
| ProfileForm.Back | app/form/page.tsx:60-64 | the step stays in 1..3 and does not move at step 1 |
| ProfileForm.NextUndoesBack | app/form/page.tsx:54-64 | above step 1, `Next` undoes `Back` |
| ProfileForm.NavButtons | app/form/page.tsx:265-282 | Back is enabled exactly when it would move the step; Submit is shown exactly when Next would not |
| ProfileForm.ProgressBar | app/form/page.tsx:113-129 | three segments, highlighted up to and including the current step and none after |
| ProfileForm.Upsert | app/form/page.tsx:85-97 | afterwards the user's profile is exactly the written row, ids stay unique, and every other user's row is kept |
| ProfileForm.SaveProfile | app/form/page.tsx:71-107 | no user: nothing written and no navigation; the plan page is opened exactly after a written upsert, and then the profile lookup finds the form's row `ProfileForm.ProfileRowOf`, the upsert object of lines 87-96 |
| Journey.OnboardingOpensRevision | app/fix/page.tsx:46-96 | after a saved profile and a saved first plan, the revision endpoint passes its gates with that profile, goal and plan in its prompt |
| Journey.RevisionKeepsGoal | app/fix/page.tsx:60-81 | a revision saved over a first plan with a non-empty goal keeps that goal |

## Left out

- Rendering: JSX, alerts, loading and saving flags, router navigation, `router.refresh` and console logging are left out. Navigation appears only as an outcome value.
- The database client: the three tables are in-memory sequences. Row ids assigned by the database are left out, and so are the columns the code never reads. `workout_log.created_at` is kept as an integer instant (`LogRow.createdAt`); how the database assigns it is left out.
- Write errors: each write's success or failure is a parameter, not a database rule.
- Query errors: a failing read is treated like an empty result, which is what the code's destructuring does.
- The AI call is a parameter. The prompt is modelled as its ingredients; the fixed instruction text around them is left out.
- `JSON.parse` is a parameter, so the parsed value is opaque. `JSON.stringify` of the current plan inside the prompt is left out with the rest of the prompt text.
- Number conversion: `parseInt`/`parseFloat` of the form fields is left out. Profile fields stay the entered text, and the log weight is the text JavaScript prints for it.
- Dates: `new Date()`, the fourteen-day subtraction and `toLocaleDateString('ja-JP')` are left out. The cutoff is a parameter and the date label a function parameter.
- `req.json()` failing on a malformed request body is left out; the request's `issue` or `goal` is a plain string.
- `response.json()` failing on the page is left out, and so is the `message` field of the 500 bodies. The `debug` field of the "Invalid response format" body is left out too.
- Concurrency: the two page writes run one after the other with nothing in between, so interleaved requests are left out.
- app/error/page.tsx, the workout, records and profile pages, and the sign-in and sign-up actions are not part of this model.
- FixPage.Generate, PlanPage.Generate: the pages trust the TypeScript type of the response's `data` and keep it as a `RoadmapData`. The source stores whatever JSON the route returned (`setRoadmap(result.data)`). A reply such as "null" reaches a 200 with `data` null, and the revision route turns "} null {" into " null " through the swapped `substring`. With falsy `data` the page then shows no plan and `handleConfirm` returns at once; any other non-plan JSON is stored unchecked as `menu_json`. The model covers neither case, because it carries no JSON value type at the pages.
- ProfileForm.SaveProfile: `authError` and a missing user are both modelled as `auth == None`.
- Store.RecentLogs: orders by insertion into a newest-first list. Rows with equal timestamps may come out in a different order than the database's.

=== FILE: activation.dfy ===
/** Activating a confirmed plan on the `roadmaps` table, as both confirm handlers do it: first
    every row of the user is marked inactive, then one new active row is inserted. The two writes
    are separate requests; neither is rolled back when the other fails, and a failed
    deactivation is not even noticed. */
module Activation {
  import opened Optional
  import opened RoadmapTypes
  import opened Store

  /** The outcome of one write request. */
  datatype WriteResult = Written | WriteFailed

  /** How a confirm handler ended: with no plan to confirm, with no signed-in user, after a
      written insert (the page navigates home), or after a failed one (the page shows an alert). */
  datatype ConfirmOutcome = NothingToConfirm | SignInRequired | Saved | SaveFailed

  /** The `roadmaps` table after a confirm handler, and how the handler ended. */
  datatype Confirmed = Confirmed(table: seq<RoadmapRow>, outcome: ConfirmOutcome)

  /** `roadmaps.update({is_active: false}).eq('user_id', uid)`: every row of the user, active or
      not, loses its flag; nothing else changes. */
  function Deactivate(t: seq<RoadmapRow>, uid: UserId): (r: seq<RoadmapRow>)
    ensures |r| == |t|
    ensures forall i :: 0 <= i < |t| && t[i].userId != uid ==> r[i] == t[i]
    ensures forall i :: 0 <= i < |t| && t[i].userId == uid ==> r[i] == t[i].(isActive := false)
  {
    if |t| == 0 then []
    else
      var head := if t[0].userId == uid then t[0].(isActive := false) else t[0];
      [head] + Deactivate(t[1..], uid)
  }

  lemma DeactivateLeavesNoActive(t: seq<RoadmapRow>, uid: UserId)
    ensures ActiveRowsOf(Deactivate(t, uid), uid) == []
  {
    FilterNone(Deactivate(t, uid), ActiveFor(uid));
  }

  /** The row `insert` adds. */
  function NewRecord(uid: UserId, goal: string, menu: RoadmapData): RoadmapRow {
    RoadmapRow(uid, goal, menu, true)
  }

  /** The two writes in order. The deactivation takes effect only if it was written; the insert
      runs either way and appends the new row when it is written. */
  function Activate(t: seq<RoadmapRow>, uid: UserId, goal: string, menu: RoadmapData, update: WriteResult, insert: WriteResult): (r: seq<RoadmapRow>)
    ensures insert == Written ==> |r| == |t| + 1 && r[|t|] == NewRecord(uid, goal, menu)
    ensures insert == WriteFailed ==> |r| == |t|
    ensures forall i :: 0 <= i < |t| && t[i].userId != uid ==> r[i] == t[i]
    ensures update == Written ==> forall i :: 0 <= i < |t| && t[i].userId == uid ==> r[i] == t[i].(isActive := false)
    ensures update == WriteFailed ==> r[..|t|] == t
  {
    var afterUpdate := if update == Written then Deactivate(t, uid) else t;
    if insert == Written then afterUpdate + [NewRecord(uid, goal, menu)] else afterUpdate
  }

  /** When both writes go through, the new row is the user's one and only active row. */
  lemma ActivateLeavesOneActive(t: seq<RoadmapRow>, uid: UserId, goal: string, menu: RoadmapData)
    ensures ActiveRowsOf(Activate(t, uid, goal, menu, Written, Written), uid) == [NewRecord(uid, goal, menu)]
    ensures ActiveRoadmapOf(Activate(t, uid, goal, menu, Written, Written), uid) == Some(NewRecord(uid, goal, menu))
  {
    var d := Deactivate(t, uid);
    DeactivateLeavesNoActive(t, uid);
    FilterConcat(d, [NewRecord(uid, goal, menu)], ActiveFor(uid));
  }

  /** When the deactivation went through but the insert failed, the user is left with no active
      plan at all. */
  lemma FailedInsertLeavesNoActive(t: seq<RoadmapRow>, uid: UserId, goal: string, menu: RoadmapData)
    ensures ActiveRowsOf(Activate(t, uid, goal, menu, Written, WriteFailed), uid) == []
    ensures ActiveRoadmapOf(Activate(t, uid, goal, menu, Written, WriteFailed), uid).None?
  {
    DeactivateLeavesNoActive(t, uid);
  }

  /** When the deactivation failed but the insert went through, the user's earlier active rows
      stay active beside the new one. */
  lemma FailedUpdateKeepsOldActive(t: seq<RoadmapRow>, uid: UserId, goal: string, menu: RoadmapData)
    ensures ActiveRowsOf(Activate(t, uid, goal, menu, WriteFailed, Written), uid) == ActiveRowsOf(t, uid) + [NewRecord(uid, goal, menu)]
  {
    FilterConcat(t, [NewRecord(uid, goal, menu)], ActiveFor(uid));
  }

  /** The two cases above, for callers that go through `Activate` with arbitrary outcomes. */
  lemma ActivateActiveRows(t: seq<RoadmapRow>, uid: UserId, goal: string, menu: RoadmapData, update: WriteResult, insert: WriteResult)
    ensures update == Written && insert == Written ==>
      ActiveRoadmapOf(Activate(t, uid, goal, menu, update, insert), uid) == Some(NewRecord(uid, goal, menu))
    ensures update == Written && insert == WriteFailed ==>
      ActiveRowsOf(Activate(t, uid, goal, menu, update, insert), uid) == []
  {
    if update == Written {
      if insert == Written {
        ActivateLeavesOneActive(t, uid, goal, menu);
      } else {
        FailedInsertLeavesNoActive(t, uid, goal, menu);
      }
    }
  }

  /** The active rows of every other user are the same before and after, whatever failed. */
  lemma {:induction false} DeactivateKeepsOthersActive(t: seq<RoadmapRow>, uid: UserId, other: UserId)
    requires other != uid
    ensures ActiveRowsOf(Deactivate(t, uid), other) == ActiveRowsOf(t, other)
  {
    if |t| > 0 {
      DeactivateKeepsOthersActive(t[1..], uid, other);
      assert Deactivate(t, uid)[1..] == Deactivate(t[1..], uid);
    }
  }

  lemma ActivateKeepsOthersActive(t: seq<RoadmapRow>, uid: UserId, goal: string, menu: RoadmapData, update: WriteResult, insert: WriteResult, other: UserId)
    requires other != uid
    ensures ActiveRowsOf(Activate(t, uid, goal, menu, update, insert), other) == ActiveRowsOf(t, other)
  {
    var afterUpdate := if update == Written then Deactivate(t, uid) else t;
    if update == Written {
      DeactivateKeepsOthersActive(t, uid, other);
    }
    if insert == Written {
      FilterConcat(afterUpdate, [NewRecord(uid, goal, menu)], ActiveFor(other));
    }
  }

  /** No user has more than one active plan. */
  ghost predicate AtMostOneActive(t: seq<RoadmapRow>) {
    forall uid :: |ActiveRowsOf(t, uid)| <= 1
  }

  /** A fully written activation keeps "at most one active plan per user", and the one user it
      touches ends with exactly one. */
  lemma ActivatePreservesAtMostOneActive(t: seq<RoadmapRow>, uid: UserId, goal: string, menu: RoadmapData)
    requires AtMostOneActive(t)
    ensures AtMostOneActive(Activate(t, uid, goal, menu, Written, Written))
  {
    var r := Activate(t, uid, goal, menu, Written, Written);
    forall other
      ensures |ActiveRowsOf(r, other)| <= 1
    {
      if other == uid {
        ActivateLeavesOneActive(t, uid, goal, menu);
      } else {
        ActivateKeepsOthersActive(t, uid, goal, menu, Written, Written, other);
      }
    }
  }

  /** The invariant is not kept when the deactivation fails: a user with one active plan ends
      with two. */
  lemma FailedUpdateBreaksAtMostOneActive(uid: UserId, goal: string, menu: RoadmapData)
    ensures var t := [NewRecord(uid, goal, menu)];
      && AtMostOneActive(t)
      && !AtMostOneActive(Activate(t, uid, goal, menu, WriteFailed, Written))
  {
    var t := [NewRecord(uid, goal, menu)];
    forall other
      ensures |ActiveRowsOf(t, other)| <= 1
    {
    }
    FailedUpdateKeepsOldActive(t, uid, goal, menu);
    assert ActiveRowsOf(t, uid) == [NewRecord(uid, goal, menu)];
    assert |ActiveRowsOf(Activate(t, uid, goal, menu, WriteFailed, Written), uid)| == 2;
  }
}

=== FILE: fix_page.dfy ===
/** The plan-revision page: the user describes a problem with the current plan, the revision
    endpoint proposes a new plan, and confirming it makes it the active plan while keeping the
    goal of the plan it replaces. */
module FixPage {
  import opened Optional
  import opened RoadmapTypes
  import opened Store
  import opened Http
  import opened Activation

  /** The page's state: the typed issue and the proposed plan, if one was generated. */
  datatype FixPage = FixPage(issue: string, roadmap: Option<RoadmapData>)

  /** `handleGenerate`: with an empty issue no request is sent and nothing changes; otherwise the
      issue is posted to the revision endpoint (`server`, `None` when `fetch` throws) and the
      answer is taken in. */
  function Generate(page: FixPage, server: string -> Option<Response<RoadmapData>>): (r: (FixPage, Option<string>))
    ensures page.issue == "" ==> r == (page, None)
    ensures page.issue != "" ==> r.1 == Some(page.issue)
    ensures r.0.issue == page.issue
    ensures page.issue != "" ==> r.0.roadmap == ReceivePlan(page.roadmap, server(page.issue))
  {
    if page.issue == "" then (page, None)
    else (page.(roadmap := ReceivePlan(page.roadmap, server(page.issue))), Some(page.issue))
  }

  /** `currentRoadmap?.goal_text || issue`: the goal of the user's single active plan when there
      is one and its goal is not empty, the issue text otherwise. */
  function CarriedGoal(t: seq<RoadmapRow>, uid: UserId, issue: string): (r: string)
    ensures r == issue || (ActiveRoadmapOf(t, uid).Some? && r == ActiveRoadmapOf(t, uid).value.goalText && r != "")
    ensures ActiveRoadmapOf(t, uid).Some? && ActiveRoadmapOf(t, uid).value.goalText != "" ==> r == ActiveRoadmapOf(t, uid).value.goalText
  {
    match ActiveRoadmapOf(t, uid)
    case Some(current) => if current.goalText != "" then current.goalText else issue
    case None => issue
  }

  /** `handleConfirm`. Without a proposed plan it does nothing; without a signed-in user it writes
      nothing; otherwise it reads the goal to carry forward, deactivates every row of the user,
      and inserts the proposed plan as the new active row. `update` and `insert` are the
      outcomes of the two writes; only a failed insert is reported. */
  function Confirm(page: FixPage, auth: Option<UserId>, t: seq<RoadmapRow>, update: WriteResult, insert: WriteResult): (r: Confirmed)
    ensures |t| <= |r.table| <= |t| + 1
    ensures page.roadmap.None? ==> r == Confirmed(t, NothingToConfirm)
    ensures page.roadmap.Some? && auth.None? ==> r == Confirmed(t, SignInRequired)
    ensures r.outcome == Saved <==> page.roadmap.Some? && auth.Some? && insert == Written
    ensures r.outcome == SaveFailed ==> |r.table| == |t|
    ensures page.roadmap.Some? && auth.Some? ==>
      var uid := auth.value;
      && (forall i :: 0 <= i < |t| && t[i].userId != uid ==> r.table[i] == t[i])
      && (update == Written ==> forall i :: 0 <= i < |t| && t[i].userId == uid ==> r.table[i] == t[i].(isActive := false))
      && (update == WriteFailed ==> r.table[..|t|] == t)
    ensures r.outcome == Saved ==>
      && |r.table| == |t| + 1
      && r.table[|t|] == NewRecord(auth.value, CarriedGoal(t, auth.value, page.issue), page.roadmap.value)
    ensures r.outcome == Saved && update == Written ==>
      ActiveRoadmapOf(r.table, auth.value) == Some(r.table[|t|])
    ensures r.outcome == SaveFailed && update == Written ==>
      ActiveRowsOf(r.table, auth.value) == []
  {
    match page.roadmap
    case None => Confirmed(t, NothingToConfirm)
    case Some(plan) =>
      match auth
      case None => Confirmed(t, SignInRequired)
      case Some(uid) =>
        var goal := CarriedGoal(t, uid, page.issue);
        var table := Activate(t, uid, goal, plan, update, insert);
        ActivateActiveRows(t, uid, goal, plan, update, insert);
        Confirmed(table, if insert == Written then Saved else SaveFailed)
  }
}

=== FILE: fix_route.dfy ===
/** `POST /api/roadmap/fix`: the plan-revision endpoint. It checks the caller, their profile and
    their active plan, summarises their recent workouts, asks the AI for a revised plan and
    extracts the JSON from the reply. It writes nothing to the store. */
module FixRoute {
  import opened Optional
  import opened Text
  import opened RoadmapTypes
  import opened Store
  import opened Http
  import opened ReplyExtraction

  /** The summary sent when there are no recent logs. */
  const NoRecords: string := "トレーニング実績なし"

  /** What the revision prompt is built from. */
  datatype FixPrompt = FixPrompt(
    profile: ProfileRow,
    goalText: string,
    currentMenu: RoadmapData,
    performance: string,
    issue: string)

  /** One summary line: `[<date>] <exercise>: <weight>kg × <reps>回 (第<week>週 Day<day>)`, the date
      rendered by `dateLabel` (the locale's month/day form). */
  function LogLine(log: LogRow, dateLabel: int -> string): string {
    "[" + dateLabel(log.createdAt) + "] " + log.exerciseName + ": " + log.weight + "kg × "
      + IntToString(log.reps) + "回 (第" + IntToString(log.week) + "週 Day" + IntToString(log.day) + ")"
  }

  function LogLines(logs: seq<LogRow>, dateLabel: int -> string): (r: seq<string>)
    ensures |r| == |logs|
    ensures forall i :: 0 <= i < |logs| ==> r[i] == LogLine(logs[i], dateLabel)
  {
    seq(|logs|, i requires 0 <= i < |logs| => LogLine(logs[i], dateLabel))
  }

  /** The performance summary of the prompt: the fixed "no records" text when there are no logs,
      otherwise the logs' lines in the order given, joined by line feeds. */
  function PerformanceSummary(logs: seq<LogRow>, dateLabel: int -> string): (r: string)
    ensures |logs| == 0 <==> r == NoRecords
  {
    if |logs| > 0 then
      LogLinesAreNotNoRecords(logs, dateLabel);
      Join(LogLines(logs, dateLabel), "\n")
    else NoRecords
  }

  /** A summary built from logs never reads as the "no records" text: every log line starts with `[`. */
  lemma LogLinesAreNotNoRecords(logs: seq<LogRow>, dateLabel: int -> string)
    requires |logs| > 0
    ensures Join(LogLines(logs, dateLabel), "\n") != NoRecords
  {
    var lines := LogLines(logs, dateLabel);
    assert lines[0][0] == '[';
    assert Join(lines, "\n")[0] == '[';
  }

  /** Split at line feeds, the summary of a non-empty log list gives back exactly one line per
      log, in the order the logs were fetched (newest first), provided no rendered line contains
      a line feed of its own. */
  lemma {:induction false} SummaryHasOneLinePerLog(logs: seq<LogRow>, dateLabel: int -> string)
    requires |logs| > 0
    requires forall i :: 0 <= i < |logs| ==> !HasChar(LogLine(logs[i], dateLabel), '\n')
    ensures var lines := Split(PerformanceSummary(logs, dateLabel), '\n');
      |lines| == |logs| && forall i :: 0 <= i < |logs| ==> lines[i] == LogLine(logs[i], dateLabel)
  {
    SplitJoin(LogLines(logs, dateLabel), '\n');
  }

  /** The steps after the AI was called: a missing or empty reply is a 501; otherwise the reply is
      cleaned and sliced from brace to brace, a reply without both braces is a 500 "Invalid
      response format" and nothing is parsed, and the slice goes to `JSON.parse`. A throwing AI
      call lands in the `catch`: a 500. */
  function Answer<J>(outcome: AiOutcome, parse: string -> Option<J>): (r: Answered<J>)
    ensures outcome.AiThrew? ==> r == Answered(Response(500, Failure(GenerationFailed)), None)
    ensures outcome.AiAnswered? && UsableText(outcome).None? ==> r == Answered(Response(501, Failure(RequestFailed)), None)
    ensures UsableText(outcome).Some? && Extract(UsableText(outcome).value).NoJson? ==>
      r == Answered(Response(500, Failure(InvalidResponseFormat)), None)
    ensures r.parserInput.Some? <==> UsableText(outcome).Some? && Extract(UsableText(outcome).value).Extracted?
    ensures r.parserInput.Some? ==> r.parserInput == Some(Extract(UsableText(outcome).value).json)
    ensures r.parserInput.Some? ==> r == ParseAnswer(r.parserInput.value, parse)
  {
    match outcome
    case AiThrew => Answered(Response(500, Failure(GenerationFailed)), None)
    case AiAnswered(_) =>
      match UsableText(outcome)
      case None => Answered(Response(501, Failure(RequestFailed)), None)
      case Some(text) =>
        match Extract(text)
        case NoJson => Answered(Response(500, Failure(InvalidResponseFormat)), None)
        case Extracted(json) => ParseAnswer(json, parse)
  }

  /** The whole request. The gates run in order (no user: 401; no profile: 404; no single active
      plan: 404) and the AI is called only when all three pass. `cutoff` is the instant fourteen
      days before the request; `ai` answers a prompt; `parse` is `JSON.parse`. */
  function Handle<J>(
    issue: string,
    auth: Option<UserId>,
    db: Database,
    cutoff: int,
    dateLabel: int -> string,
    ai: FixPrompt -> AiOutcome,
    parse: string -> Option<J>): (r: RouteResult<FixPrompt, J>)
    ensures auth.None? ==> r == Refuse(401, Unauthorized)
    ensures auth.Some? && ProfileOf(db.users, auth.value).None? ==> r == Refuse(404, ProfileNotFound)
    ensures auth.Some? && ProfileOf(db.users, auth.value).Some? && ActiveRoadmapOf(db.roadmaps, auth.value).None? ==>
      r == Refuse(404, ActiveRoadmapNotFound)
    ensures r.prompt.Some? <==>
      auth.Some? && ProfileOf(db.users, auth.value).Some? && ActiveRoadmapOf(db.roadmaps, auth.value).Some?
    ensures r.prompt.Some? ==>
      var current := ActiveRoadmapOf(db.roadmaps, auth.value).value;
      && r.prompt.value.profile == ProfileOf(db.users, auth.value).value
      && r.prompt.value.goalText == current.goalText
      && r.prompt.value.currentMenu == current.menu
      && r.prompt.value.performance == PerformanceSummary(RecentLogs(db.logs, auth.value, cutoff), dateLabel)
      && r.prompt.value.issue == issue
    ensures r.prompt.Some? ==> Answered(r.response, r.parserInput) == Answer(ai(r.prompt.value), parse)
    ensures r.parserInput.Some? ==> r.prompt.Some?
  {
    match auth
    case None => Refuse(401, Unauthorized)
    case Some(uid) =>
      match ProfileOf(db.users, uid)
      case None => Refuse(404, ProfileNotFound)
      case Some(profile) =>
        match ActiveRoadmapOf(db.roadmaps, uid)
        case None => Refuse(404, ActiveRoadmapNotFound)
        case Some(current) =>
          var summary := PerformanceSummary(RecentLogs(db.logs, uid, cutoff), dateLabel);
          var prompt := FixPrompt(profile, current.goalText, current.menu, summary, issue);
          var answered := Answer(ai(prompt), parse);
          RouteResult(answered.response, Some(prompt), answered.parserInput)
  }

  /** Every response of the route carries one of the statuses the source writes. */
  lemma HandleStatuses<J>(
    issue: string, auth: Option<UserId>, db: Database, cutoff: int,
    dateLabel: int -> string, ai: FixPrompt -> AiOutcome, parse: string -> Option<J>)
    ensures Handle(issue, auth, db, cutoff, dateLabel, ai, parse).response.status in {200, 401, 404, 500, 501}
  {
  }

  /** A successful run returns the parsed value unchanged, and that value is what `JSON.parse`
      made of a slice of the cleaned reply running from `{` to `}` or holding no brace at all. */
  lemma HandleSuccess<J>(
    issue: string, auth: Option<UserId>, db: Database, cutoff: int,
    dateLabel: int -> string, ai: FixPrompt -> AiOutcome, parse: string -> Option<J>)
    ensures var r := Handle(issue, auth, db, cutoff, dateLabel, ai, parse);
      r.response.status == 200 ==>
        && r.prompt.Some? && r.parserInput.Some?
        && parse(r.parserInput.value).Some?
        && r.response.body == Success(parse(r.parserInput.value).value)
        && (Framed(r.parserInput.value) || BraceFree(r.parserInput.value))
        && !Contains(r.parserInput.value, Backticks)
  {
    var r := Handle(issue, auth, db, cutoff, dateLabel, ai, parse);
    if r.response.status == 200 {
      var text := UsableText(ai(r.prompt.value)).value;
      var c := Clean(text);
      assert Extract(text) == SliceBraces(c);
    }
  }
}

=== FILE: http.dfy ===
/** The JSON responses of the two generation endpoints, the outcome of the call to the AI
    model, and what a route run leaves behind for the caller to inspect. */
module Http {
  import opened Optional

  datatype Body<J> = Success(data: J) | Failure(error: string)

  datatype Response<J> = Response(status: int, body: Body<J>)

  /** `fetch`'s `response.ok`. */
  predicate IsOk(status: int) {
    200 <= status <= 299
  }

  /** What the AI call produced: it threw, or it returned a result whose `text` may be missing. */
  datatype AiOutcome = AiThrew | AiAnswered(text: Option<string>)

  /** The reply text the routes go on with: present and non-empty (JavaScript's `!result.text`
      rejects both `undefined` and the empty string). */
  function UsableText(outcome: AiOutcome): (r: Option<string>)
    ensures r.Some? ==> |r.value| > 0
    ensures r.Some? <==> outcome.AiAnswered? && outcome.text.Some? && outcome.text.value != ""
    ensures r.Some? ==> r.value == outcome.text.value
  {
    match outcome
    case AiAnswered(Some(t)) => if t == "" then None else Some(t)
    case _ => None
  }

  /** One run of a route: its response, the prompt ingredients handed to the AI (`None` when the
      AI was not called) and the text handed to `JSON.parse` (`None` when nothing was parsed). */
  datatype RouteResult<P, J> = RouteResult(response: Response<J>, prompt: Option<P>, parserInput: Option<string>)

  /** The part of a route run after the AI was called: the response and the text handed to
      `JSON.parse` (`None` when nothing was parsed). */
  datatype Answered<J> = Answered(response: Response<J>, parserInput: Option<string>)

  /** The last step both routes share: the text reaches `JSON.parse`; a value is returned
      unchanged with status 200, a parse failure lands in the `catch` and becomes a 500. */
  function ParseAnswer<J>(text: string, parse: string -> Option<J>): (r: Answered<J>)
    ensures r.parserInput == Some(text)
    ensures r.response.status == 200 <==> parse(text).Some?
    ensures r.response.status == 200 ==> r.response.body == Success(parse(text).value)
    ensures r.response.status != 200 ==> r.response == Response(500, Failure(GenerationFailed))
  {
    match parse(text)
    case Some(v) => Answered(Response(200, Success(v)), Some(text))
    case None => Answered(Response(500, Failure(GenerationFailed)), Some(text))
  }

  /** How a page takes in the answer to its generation request (`None`: `fetch` threw). A
      non-ok status raises an error that the page only reports, so the shown plan stays as it
      was; an ok response replaces it with the body's `data`, which an error body lacks. */
  function ReceivePlan<J>(current: Option<J>, response: Option<Response<J>>): (r: Option<J>)
    ensures response.None? || !IsOk(response.value.status) ==> r == current
    ensures response.Some? && IsOk(response.value.status) ==>
      r == if response.value.body.Success? then Some(response.value.body.data) else None
  {
    match response
    case None => current
    case Some(Response(status, body)) =>
      if !IsOk(status) then current
      else match body
        case Success(data) => Some(data)
        case Failure(_) => None
  }

  const Unauthorized: string := "Unauthorized"
  const ProfileNotFound: string := "User profile not found"
  const ActiveRoadmapNotFound: string := "Active roadmap not found"
  const RequestFailed: string := "リクエストに失敗しました"
  const InvalidResponseFormat: string := "Invalid response format"
  const GenerationFailed: string := "Failed to generate roadmap"

  /** A route run that stopped before reaching the AI. */
  function Refuse<P, J>(status: int, error: string): RouteResult<P, J> {
    RouteResult(Response(status, Failure(error)), None, None)
  }
}

=== FILE: journey.dfy ===
/** How the pieces fit together along the user's path: the profile form, the first plan, then a
    revision. */
module Journey {
  import opened Optional
  import opened RoadmapTypes
  import opened Store
  import opened Http
  import opened Activation
  import ProfileForm
  import PlanPage
  import FixPage
  import FixRoute

  /** After a saved profile and a saved first plan (both writes done), the revision endpoint
      passes all three of its gates and asks the AI, with the saved profile and the confirmed
      plan in its prompt. */
  lemma OnboardingOpensRevision<J>(
    data: ProfileForm.FormData,
    uid: UserId,
    users: seq<ProfileRow>,
    t: seq<RoadmapRow>,
    page: PlanPage.PlanPage,
    logs: seq<LogRow>,
    issue: string,
    cutoff: int,
    dateLabel: int -> string,
    ai: FixRoute.FixPrompt -> AiOutcome,
    parse: string -> Option<J>)
    requires ProfileForm.UniqueIds(users)
    requires page.roadmap.Some?
    ensures var saved := ProfileForm.SaveProfile(data, Some(uid), users, Written);
      var confirmed := PlanPage.Confirm(page, Some(uid), t, Written, Written);
      var r := FixRoute.Handle(issue, Some(uid), Database(saved.0, confirmed.table, logs), cutoff, dateLabel, ai, parse);
      && r.prompt.Some?
      && r.prompt.value.profile == ProfileForm.ProfileRowOf(uid, data)
      && r.prompt.value.goalText == page.goal
      && r.prompt.value.currentMenu == page.roadmap.value
  {
  }

  /** A revision saved over a first plan keeps the first plan's goal, as long as that goal was
      not empty: the revision page's issue text never replaces it. */
  lemma RevisionKeepsGoal(
    uid: UserId,
    t: seq<RoadmapRow>,
    first: PlanPage.PlanPage,
    revision: FixPage.FixPage)
    requires first.roadmap.Some? && first.goal != ""
    requires revision.roadmap.Some?
    ensures var t1 := PlanPage.Confirm(first, Some(uid), t, Written, Written).table;
      var t2 := FixPage.Confirm(revision, Some(uid), t1, Written, Written).table;
      ActiveRoadmapOf(t2, uid) == Some(NewRecord(uid, first.goal, revision.roadmap.value))
  {
  }
}

=== FILE: optional.dfy ===
/** An optional value: the model's stand-in for JavaScript's `null`/`undefined`. */
module Optional {

  datatype Option<+T> = None | Some(value: T)

  /** The value of a `.single()` query: the row when exactly one row matches, nothing otherwise
      (zero matches and several matches are both reported as "no data"). */
  function Single<T>(rows: seq<T>): (r: Option<T>)
    ensures r.Some? <==> |rows| == 1
    ensures r.Some? ==> r.value == rows[0]
  {
    if |rows| == 1 then Some(rows[0]) else None
  }

  /** The elements of `xs` that satisfy `p`, in their original order, each as often as it occurs
      in `xs`. */
  function Filter<T>(xs: seq<T>, p: T -> bool): (r: seq<T>)
    ensures |r| <= |xs|
    ensures forall i :: 0 <= i < |r| ==> r[i] in xs && p(r[i])
    ensures forall i :: 0 <= i < |xs| && p(xs[i]) ==> xs[i] in r
  {
    if |xs| == 0 then []
    else if p(xs[0]) then [xs[0]] + Filter(xs[1..], p)
    else Filter(xs[1..], p)
  }

  /** Filtering keeps every matching element as often as it occurs and drops every other one, so
      identical elements are kept as separate matches. */
  lemma {:induction false} FilterMultiplicity<T>(xs: seq<T>, p: T -> bool)
    ensures forall x :: x in xs ==> multiset(Filter(xs, p))[x] == if p(x) then multiset(xs)[x] else 0
  {
    if |xs| > 0 {
      FilterMultiplicity(xs[1..], p);
      assert xs == [xs[0]] + xs[1..];
      forall x | x in xs
        ensures multiset(Filter(xs, p))[x] == if p(x) then multiset(xs)[x] else 0
      {
        if x !in xs[1..] {
          assert multiset(xs[1..])[x] == 0;
          assert multiset(Filter(xs[1..], p))[x] == 0;
        }
      }
    }
  }

  lemma {:induction false} FilterConcat<T>(xs: seq<T>, ys: seq<T>, p: T -> bool)
    ensures Filter(xs + ys, p) == Filter(xs, p) + Filter(ys, p)
  {
    if |xs| == 0 {
      assert xs + ys == ys;
    } else {
      assert (xs + ys)[1..] == xs[1..] + ys;
      FilterConcat(xs[1..], ys, p);
    }
  }

  /** A sequence with no element satisfying `p` filters to nothing. */
  lemma {:induction false} FilterNone<T>(xs: seq<T>, p: T -> bool)
    requires forall i :: 0 <= i < |xs| ==> !p(xs[i])
    ensures Filter(xs, p) == []
  {
    if |xs| > 0 {
      FilterNone(xs[1..], p);
    }
  }
}

=== FILE: plan_page.dfy ===
/** The first-plan page: the user states a goal, the first-plan endpoint proposes a plan, and
    confirming it makes it the user's active plan under the goal as entered. */
module PlanPage {
  import opened Optional
  import opened RoadmapTypes
  import opened Store
  import opened Http
  import opened Activation

  /** The page's state: the typed goal and the proposed plan, if one was generated. */
  datatype PlanPage = PlanPage(goal: string, roadmap: Option<RoadmapData>)

  /** `handleGenerate`: with an empty goal no request is sent and nothing changes; otherwise the
      goal is posted to the first-plan endpoint (`server`, `None` when `fetch` throws) and the
      answer is taken in. */
  function Generate(page: PlanPage, server: string -> Option<Response<RoadmapData>>): (r: (PlanPage, Option<string>))
    ensures page.goal == "" ==> r == (page, None)
    ensures page.goal != "" ==> r.1 == Some(page.goal)
    ensures r.0.goal == page.goal
    ensures page.goal != "" ==> r.0.roadmap == ReceivePlan(page.roadmap, server(page.goal))
  {
    if page.goal == "" then (page, None)
    else (page.(roadmap := ReceivePlan(page.roadmap, server(page.goal))), Some(page.goal))
  }

  /** `handleConfirm`. Without a proposed plan it does nothing; without a signed-in user it writes
      nothing; otherwise it deactivates every row of the user and inserts the proposed plan, under
      the goal as entered, as the new active row. `update` and `insert` are the outcomes of the
      two writes; only a failed insert is reported. */
  function Confirm(page: PlanPage, auth: Option<UserId>, t: seq<RoadmapRow>, update: WriteResult, insert: WriteResult): (r: Confirmed)
    ensures |t| <= |r.table| <= |t| + 1
    ensures page.roadmap.None? ==> r == Confirmed(t, NothingToConfirm)
    ensures page.roadmap.Some? && auth.None? ==> r == Confirmed(t, SignInRequired)
    ensures r.outcome == Saved <==> page.roadmap.Some? && auth.Some? && insert == Written
    ensures r.outcome == SaveFailed ==> |r.table| == |t|
    ensures page.roadmap.Some? && auth.Some? ==>
      var uid := auth.value;
      && (forall i :: 0 <= i < |t| && t[i].userId != uid ==> r.table[i] == t[i])
      && (update == Written ==> forall i :: 0 <= i < |t| && t[i].userId == uid ==> r.table[i] == t[i].(isActive := false))
      && (update == WriteFailed ==> r.table[..|t|] == t)
    ensures r.outcome == Saved ==>
      && |r.table| == |t| + 1
      && r.table[|t|] == NewRecord(auth.value, page.goal, page.roadmap.value)
    ensures r.outcome == Saved && update == Written ==>
      ActiveRoadmapOf(r.table, auth.value) == Some(r.table[|t|])
    ensures r.outcome == SaveFailed && update == Written ==>
      ActiveRowsOf(r.table, auth.value) == []
  {
    match page.roadmap
    case None => Confirmed(t, NothingToConfirm)
    case Some(plan) =>
      match auth
      case None => Confirmed(t, SignInRequired)
      case Some(uid) =>
        var table := Activate(t, uid, page.goal, plan, update, insert);
        ActivateActiveRows(t, uid, page.goal, plan, update, insert);
        Confirmed(table, if insert == Written then Saved else SaveFailed)
  }
}

=== FILE: plan_route.dfy ===
/** `POST /api/roadmap`: the first-plan endpoint. It checks the caller and their profile, asks
    the AI for an eight-week plan toward the stated goal, strips code fences from the reply and
    parses what is left. It slices nothing out of the reply, and it writes nothing to the store:
    its persistence step is commented out. */
module PlanRoute {
  import opened Optional
  import opened Text
  import opened Store
  import opened Http
  import opened ReplyExtraction

  /** What the first-plan prompt is built from. */
  datatype PlanPrompt = PlanPrompt(profile: ProfileRow, goal: string)

  /** The steps after the AI was called: a missing or empty reply is a 501; otherwise the whole
      cleaned reply, prose and all, goes to `JSON.parse`. A throwing AI call is a 500. */
  function Answer<J>(outcome: AiOutcome, parse: string -> Option<J>): (r: Answered<J>)
    ensures outcome.AiThrew? ==> r == Answered(Response(500, Failure(GenerationFailed)), None)
    ensures outcome.AiAnswered? && UsableText(outcome).None? ==> r == Answered(Response(501, Failure(RequestFailed)), None)
    ensures r.parserInput.Some? <==> UsableText(outcome).Some?
    ensures r.parserInput.Some? ==> r.parserInput == Some(Clean(UsableText(outcome).value))
    ensures r.parserInput.Some? ==> r == ParseAnswer(r.parserInput.value, parse)
  {
    match outcome
    case AiThrew => Answered(Response(500, Failure(GenerationFailed)), None)
    case AiAnswered(_) =>
      match UsableText(outcome)
      case None => Answered(Response(501, Failure(RequestFailed)), None)
      case Some(text) => ParseAnswer(Clean(text), parse)
  }

  /** The whole request: no user is a 401, no profile a 404, and only then is the AI called. */
  function Handle<J>(
    goal: string,
    auth: Option<UserId>,
    db: Database,
    ai: PlanPrompt -> AiOutcome,
    parse: string -> Option<J>): (r: RouteResult<PlanPrompt, J>)
    ensures auth.None? ==> r == Refuse(401, Unauthorized)
    ensures auth.Some? && ProfileOf(db.users, auth.value).None? ==> r == Refuse(404, ProfileNotFound)
    ensures r.prompt.Some? <==> auth.Some? && ProfileOf(db.users, auth.value).Some?
    ensures r.prompt.Some? ==> r.prompt.value == PlanPrompt(ProfileOf(db.users, auth.value).value, goal)
    ensures r.prompt.Some? ==> Answered(r.response, r.parserInput) == Answer(ai(r.prompt.value), parse)
    ensures r.parserInput.Some? ==> r.prompt.Some?
  {
    match auth
    case None => Refuse(401, Unauthorized)
    case Some(uid) =>
      match ProfileOf(db.users, uid)
      case None => Refuse(404, ProfileNotFound)
      case Some(profile) =>
        var prompt := PlanPrompt(profile, goal);
        var answered := Answer(ai(prompt), parse);
        RouteResult(answered.response, Some(prompt), answered.parserInput)
  }

  /** Every response of the route carries one of the statuses the source writes. */
  lemma HandleStatuses<J>(goal: string, auth: Option<UserId>, db: Database, ai: PlanPrompt -> AiOutcome, parse: string -> Option<J>)
    ensures Handle(goal, auth, db, ai, parse).response.status in {200, 401, 404, 500, 501}
  {
  }

  /** A fenced reply "```json\n<body>\n```" reaches the parser as exactly `body`. */
  lemma FencedReplyParsesBody<J>(goal: string, auth: Option<UserId>, db: Database, ai: PlanPrompt -> AiOutcome, parse: string -> Option<J>, body: string)
    requires auth.Some? && ProfileOf(db.users, auth.value).Some?
    requires ai(PlanPrompt(ProfileOf(db.users, auth.value).value, goal)) == AiAnswered(Some(JsonFence + "\n" + body + "\n```"))
    requires Trimmed(body) && !Contains(body, Backticks)
    ensures Handle(goal, auth, db, ai, parse).parserInput == Some(body)
    ensures Handle(goal, auth, db, ai, parse).response ==
      if parse(body).Some? then Response(200, Success(parse(body).value)) else Response(500, Failure(GenerationFailed))
  {
    CleanFencedReply(body);
  }

  /** Without brace slicing, prose around the JSON reaches the parser: when the cleaned reply has a
      `{` before a `}` but does not itself run from `{` to `}`, this route parses other text than
      the revision route would. */
  lemma ProseReachesParser(reply: string)
    requires OpensBeforeCloses(Clean(reply)) && !Framed(Clean(reply))
    ensures Extract(reply).Extracted?
    ensures Clean(reply) != Extract(reply).json
  {
  }
}

=== FILE: profile_form.dfy ===
/** The three-step profile form: basic data, body data, training data. It keeps the entered text
    per field and the current step, and on submit saves the profile of the signed-in user. */
module ProfileForm {
  import opened Optional
  import opened Store
  import opened Activation

  const TotalSteps: int := 3

  datatype Field = Username | Gender | Age | Height | Weight | BenchPress | Squat | Deadlift

  datatype FormData = FormData(
    username: string,
    gender: string,
    age: string,
    height: string,
    weight: string,
    benchPress: string,
    squat: string,
    deadlift: string)

  datatype Form = Form(step: int, data: FormData)

  function Get(d: FormData, f: Field): string {
    match f
    case Username => d.username
    case Gender => d.gender
    case Age => d.age
    case Height => d.height
    case Weight => d.weight
    case BenchPress => d.benchPress
    case Squat => d.squat
    case Deadlift => d.deadlift
  }

  predicate StepInRange(step: int) {
    1 <= step <= TotalSteps
  }

  /** The form as first shown: step 1, every field empty. */
  function Initial(): (r: Form)
    ensures StepInRange(r.step) && r.step == 1
    ensures forall f :: Get(r.data, f) == ""
  {
    Form(1, FormData("", "", "", "", "", "", "", ""))
  }

  /** `handleInputChange(field, value)`: the named field takes the value, every other field and
      the step are kept. */
  function InputChange(form: Form, field: Field, value: string): (r: Form)
    ensures r.step == form.step
    ensures Get(r.data, field) == value
    ensures forall g :: g != field ==> Get(r.data, g) == Get(form.data, g)
  {
    var d := form.data;
    var d' := match field
      case Username => d.(username := value)
      case Gender => d.(gender := value)
      case Age => d.(age := value)
      case Height => d.(height := value)
      case Weight => d.(weight := value)
      case BenchPress => d.(benchPress := value)
      case Squat => d.(squat := value)
      case Deadlift => d.(deadlift := value);
    form.(data := d')
  }

  /** `handleBack`: one step back, except at the first step. */
  function Back(form: Form): (r: Form)
    ensures r.data == form.data
    ensures StepInRange(form.step) ==> StepInRange(r.step)
    ensures form.step <= 1 ==> r == form
  {
    if form.step > 1 then form.(step := form.step - 1) else form
  }

  /** `handleNext`: one step on, except at the last step; from any earlier step, `Back` undoes it. */
  function Next(form: Form): (r: Form)
    ensures r.data == form.data
    ensures StepInRange(form.step) ==> StepInRange(r.step)
    ensures form.step >= TotalSteps ==> r == form
    ensures StepInRange(form.step) && form.step < TotalSteps ==> Back(r) == form && r != form
  {
    if form.step < TotalSteps then form.(step := form.step + 1) else form
  }

  /** From any step after the first, `Next` undoes `Back`. */
  lemma NextUndoesBack(form: Form)
    requires StepInRange(form.step) && form.step > 1
    ensures Next(Back(form)) == form
  {
  }

  /** The buttons under the form: Back is disabled at step 1; the forward button is Next before
      the last step and Submit at it. */
  datatype Buttons = Buttons(backEnabled: bool, submitShown: bool)

  function NavButtons(step: int): (r: Buttons)
    ensures StepInRange(step) ==> (r.backEnabled <==> Back(Form(step, FormData("", "", "", "", "", "", "", ""))).step != step)
    ensures StepInRange(step) ==> (r.submitShown <==> Next(Form(step, FormData("", "", "", "", "", "", "", ""))).step == step)
  {
    Buttons(step != 1, !(step < TotalSteps))
  }

  /** The three-part progress bar: segment `i` (1-based) is highlighted when the step has reached it. */
  function ProgressBar(step: int): (r: seq<bool>)
    ensures |r| == TotalSteps
    ensures forall i, j :: 0 <= i < j < |r| && r[j] ==> r[i]
    ensures StepInRange(step) ==> r[0] && (r[TotalSteps - 1] <==> step == TotalSteps)
    ensures StepInRange(step) ==> forall i :: 0 <= i < |r| ==> (r[i] <==> i < step)
  {
    [step >= 1, step >= 2, step >= 3]
  }

  datatype SaveOutcome = NotSignedIn | SaveError | GoToPlan

  /** The `users` row the profile form writes for `uid`. */
  function ProfileRowOf(uid: UserId, d: FormData): ProfileRow {
    ProfileRow(uid, d.username, d.gender, d.age, d.height, d.weight, d.benchPress, d.squat, d.deadlift)
  }

  /** No two `users` rows share an id (the table's primary key). */
  predicate UniqueIds(users: seq<ProfileRow>) {
    forall i, j :: 0 <= i < j < |users| ==> users[i].id != users[j].id
  }

  /** `users.upsert(row)` on the primary key `id`: replaces the row with that id, or appends one. */
  function Upsert(users: seq<ProfileRow>, row: ProfileRow): (r: seq<ProfileRow>)
    requires UniqueIds(users)
    ensures UniqueIds(r)
    ensures ProfileOf(r, row.id) == Some(row)
    ensures forall i :: 0 <= i < |users| && users[i].id != row.id ==> users[i] in r
    ensures forall i :: 0 <= i < |r| ==> r[i] == row || (r[i] in users && r[i].id != row.id)
  {
    var k := IdIndex(users, row.id);
    if k < |users| then
      var r := users[k := row];
      assert forall i :: 0 <= i < |users| && i != k ==> r[i] == users[i];
      assert UniqueIds(r) by {
        forall i, j | 0 <= i < j < |r| ensures r[i].id != r[j].id {
          if i == k || j == k { assert users[i].id != users[j].id; }
        }
      }
      UniqueLookup(r, k);
      r
    else
      var r := users + [row];
      UniqueLookup(r, |users|);
      r
  }

  /** The index of the row with id `uid`, or `|users|` when there is none. */
  function IdIndex(users: seq<ProfileRow>, uid: UserId): (k: nat)
    ensures k <= |users|
    ensures k < |users| ==> users[k].id == uid
    ensures k == |users| ==> forall i :: 0 <= i < |users| ==> users[i].id != uid
  {
    if |users| == 0 then 0
    else if users[0].id == uid then 0
    else 1 + IdIndex(users[1..], uid)
  }

  /** In a table with unique ids, the id of row `k` finds exactly that row. */
  lemma {:induction false} UniqueLookup(users: seq<ProfileRow>, k: nat)
    requires UniqueIds(users) && k < |users|
    ensures Filter(users, ProfileFor(users[k].id)) == [users[k]]
  {
    if k == 0 {
      FilterNone(users[1..], ProfileFor(users[0].id));
    } else {
      UniqueLookup(users[1..], k - 1);
    }
  }

  /** `handleSaveProfile`: with no signed-in user nothing is written and the page stays;
      otherwise the form is upserted as the user's row, and only a written upsert moves on to
      the plan page. */
  function SaveProfile(data: FormData, auth: Option<UserId>, users: seq<ProfileRow>, upsert: WriteResult): (r: (seq<ProfileRow>, SaveOutcome))
    requires UniqueIds(users)
    ensures auth.None? ==> r == (users, NotSignedIn)
    ensures r.1 == GoToPlan <==> auth.Some? && upsert == Written
    ensures r.1 != GoToPlan ==> r.0 == users
    ensures UniqueIds(r.0)
    ensures r.1 == GoToPlan ==> ProfileOf(r.0, auth.value) == Some(ProfileRowOf(auth.value, data))
  {
    match auth
    case None => (users, NotSignedIn)
    case Some(uid) =>
      if upsert == Written then (Upsert(users, ProfileRowOf(uid, data)), GoToPlan)
      else (users, SaveError)
  }
}

=== FILE: reply_extraction.dfy ===
/** Turning the AI model's free-text reply into the text handed to `JSON.parse`.
    Both generation routes clean the reply the same way; the revision route then also slices it
    from the first `{` to the last `}`. */
module ReplyExtraction {
  import opened Optional
  import opened Text

  const JsonFence: string := "```json"

  /** The cleaning both routes apply: remove every "```json" (and a line feed after it), then every
      remaining "```" (and a line feed after it), then trim. The result has no "```" left and no
      white space at either end. */
  function Clean(reply: string): (r: string)
    ensures Trimmed(r)
    ensures !Contains(r, Backticks)
  {
    CleanLeavesNoBackticks(reply);
    Trim(StripFence(StripFence(reply, JsonFence), Backticks))
  }

  lemma CleanLeavesNoBackticks(reply: string)
    ensures !Contains(Trim(StripFence(StripFence(reply, JsonFence), Backticks)), Backticks)
  {
    var s := StripFence(StripFence(reply, JsonFence), Backticks);
    StripBackticksRemovesAll(StripFence(reply, JsonFence));
    var r := Trim(s);
    var k :| SliceAt(s, k, r) && AllWhitespace(s[..k]) && AllWhitespace(s[k + |r|..]);
    SliceKeepsAbsence(s, k, r, Backticks);
  }

  /** Text that is already clean comes out of the cleaning unchanged. */
  lemma CleanFixedPoint(t: string)
    requires Trimmed(t) && !Contains(t, Backticks)
    ensures Clean(t) == t
  {
    AbsenceOfPrefix(t, Backticks, JsonFence);
    StripFenceIdentity(t, JsonFence);
    StripFenceIdentity(t, Backticks);
  }

  /** Cleaning is idempotent. */
  lemma CleanIdempotent(reply: string)
    ensures Clean(Clean(reply)) == Clean(reply)
  {
    CleanFixedPoint(Clean(reply));
  }

  /** No occurrence of a backtick-led, line-feed-free `fence` starts inside `body` when `body` has
      no "```" and a line feed follows it. */
  lemma NoFenceStartsIn(body: string, tail: string, fence: string)
    requires !Contains(body, Backticks)
    requires Backticks <= fence && !HasChar(fence, '\n')
    requires |tail| > 0 && tail[0] == '\n'
    ensures forall k :: 0 <= k < |body| ==> !SliceAt(body + tail, k, fence)
  {
    var s := body + tail;
    AbsenceOfPrefix(body, Backticks, fence);
    forall k | 0 <= k < |body|
      ensures !SliceAt(s, k, fence)
    {
      if k + |fence| <= |body| {
        assert body[k..k + |fence|] == s[k..k + |fence|];
        assert !SliceAt(body, k, fence);
      } else if k + |fence| <= |s| {
        assert fence[|body| - k] != '\n';
        SliceAtCharDiffers(s, k, fence, |body|);
      }
    }
  }

  /** `t` does not occur at `k` when one of its characters differs from the text under it. */
  lemma SliceAtCharDiffers(s: string, k: int, t: string, pos: int)
    requires 0 <= k <= pos < k + |t| <= |s| && t[pos - k] != s[pos]
    ensures !SliceAt(s, k, t)
  {
    assert s[k..k + |t|][pos - k] == s[pos];
  }

  /** Trimming a line feed off the end of already trimmed text. */
  lemma TrimTrailingLineFeed(body: string)
    requires Trimmed(body)
    ensures Trim(body + "\n") == body
  {
    var s := body + "\n";
    if |body| == 0 {
      assert SkipWhitespace(s, 0) == SkipWhitespace(s, 1) == 1;
    } else {
      assert SkipWhitespace(s, 0) == 0;
      assert BackOverWhitespace(s, 0, |s|) == BackOverWhitespace(s, 0, |body|) == |body|;
      assert s[0..|body|] == body;
    }
  }

  /** A reply shaped "```json\n<body>\n```" cleans to exactly `body`, for any `body` that is free of
      "```" and of surrounding white space. */
  lemma CleanFencedReply(body: string)
    requires Trimmed(body) && !Contains(body, Backticks)
    ensures Clean(JsonFence + "\n" + body + "\n```") == body
  {
    StripJsonFenceOfFencedReply(body);
    StripBackticksOfFencedBody(body);
    TrimTrailingLineFeed(body);
  }

  lemma StripJsonFenceOfFencedReply(body: string)
    requires !Contains(body, Backticks)
    ensures StripFence(JsonFence + "\n" + body + "\n```", JsonFence) == body + "\n```"
  {
    var tail := "\n```";
    var reply := JsonFence + "\n" + body + tail;
    assert reply[..|JsonFence|] == JsonFence;
    assert reply[|JsonFence|..][1..] == body + tail;
    NoFenceStartsIn(body, tail, JsonFence);
    StripFenceKeepsPrefix(body, tail, JsonFence);
    StripFenceIdentity(tail, JsonFence);
  }

  lemma StripBackticksOfFencedBody(body: string)
    requires !Contains(body, Backticks)
    ensures StripFence(body + "\n```", Backticks) == body + "\n"
  {
    var tail := "\n```";
    NoFenceStartsIn(body, tail, Backticks);
    StripFenceKeepsPrefix(body, tail, Backticks);
    assert tail[1..] == Backticks;
    assert StripFence(Backticks, Backticks) == "";
    assert StripFence(tail, Backticks) == "\n";
  }

  datatype Extraction = Extracted(json: string) | NoJson

  /** Begins with `{` and ends with `}`. */
  predicate Framed(t: string) {
    |t| >= 2 && t[0] == '{' && t[|t| - 1] == '}'
  }

  predicate BraceFree(t: string) {
    !HasChar(t, '{') && !HasChar(t, '}')
  }

  /** Some `{` comes before some `}`. */
  predicate OpensBeforeCloses(t: string) {
    exists i, j :: 0 <= i < j < |t| && t[i] == '{' && t[j] == '}'
  }

  /** `c.substring(c.indexOf('{'), c.lastIndexOf('}') + 1)`, refused when either brace is missing.
      When some `{` precedes some `}`, the result is the piece of `c` from the first `{` to the
      last `}`: prose before and after it is dropped. Otherwise `substring` swaps its bounds and
      returns the text between the last `}` and the first `{`, which holds no brace at all. */
  function SliceBraces(c: string): (r: Extraction)
    ensures r.NoJson? <==> !HasChar(c, '{') || !HasChar(c, '}')
    ensures r.Extracted? ==> Contains(c, r.json)
    ensures r.Extracted? && OpensBeforeCloses(c) ==>
      && Framed(r.json)
      && exists k :: 0 <= k <= |c| && SliceAt(c, k, r.json) && !HasChar(c[..k], '{') && !HasChar(c[k + |r.json|..], '}')
    ensures r.Extracted? && !OpensBeforeCloses(c) ==> BraceFree(r.json)
  {
    match (IndexOf(c, '{'), LastIndexOf(c, '}'))
    case (Some(start), Some(end)) =>
      SliceBracesFacts(c, start, end);
      Extracted(Substring(c, start, end + 1))
    case _ => NoJson
  }

  lemma SliceBracesFacts(c: string, start: nat, end: nat)
    requires IndexOf(c, '{') == Some(start) && LastIndexOf(c, '}') == Some(end)
    ensures var t := Substring(c, start, end + 1);
      && (OpensBeforeCloses(c) <==> start < end)
      && (start < end ==> Framed(t) && SliceAt(c, start, t) && !HasChar(c[..start], '{') && !HasChar(c[start + |t|..], '}'))
      && (end < start ==> BraceFree(t))
  {
    BracesOrder(c, start, end);
    if start < end {
      OrderedSlice(c, start, end);
    }
    if end < start {
      SwappedSlice(c, start, end);
    }
  }

  lemma BracesOrder(c: string, start: nat, end: nat)
    requires IndexOf(c, '{') == Some(start) && LastIndexOf(c, '}') == Some(end)
    ensures OpensBeforeCloses(c) <==> start < end
  {
    if OpensBeforeCloses(c) {
      var i, j :| 0 <= i < j < |c| && c[i] == '{' && c[j] == '}';
      assert start <= i && j <= end;
    }
    if start < end {
      assert c[start] == '{' && c[end] == '}';
    }
  }

  lemma OrderedSlice(c: string, start: nat, end: nat)
    requires IndexOf(c, '{') == Some(start) && LastIndexOf(c, '}') == Some(end)
    requires start < end
    ensures var t := Substring(c, start, end + 1);
      Framed(t) && SliceAt(c, start, t) && !HasChar(c[..start], '{') && !HasChar(c[start + |t|..], '}')
  {
    var t := Substring(c, start, end + 1);
    assert t == c[start..end + 1];
    NoBraceBefore(c, start);
    NoBraceAfter(c, end);
  }

  lemma NoBraceBefore(c: string, start: nat)
    requires IndexOf(c, '{') == Some(start)
    ensures !HasChar(c[..start], '{')
  {
    var before := c[..start];
    assert forall i :: 0 <= i < |before| ==> before[i] == c[i];
  }

  lemma NoBraceAfter(c: string, end: nat)
    requires LastIndexOf(c, '}') == Some(end)
    ensures !HasChar(c[end + 1..], '}')
  {
    var after := c[end + 1..];
    assert forall i :: 0 <= i < |after| ==> after[i] == c[end + 1 + i];
  }

  lemma SwappedSlice(c: string, start: nat, end: nat)
    requires IndexOf(c, '{') == Some(start) && LastIndexOf(c, '}') == Some(end)
    requires end < start
    ensures BraceFree(Substring(c, start, end + 1))
  {
    var t := Substring(c, start, end + 1);
    assert t == c[end + 1..start];
    assert !HasChar(t, '{');
    assert !HasChar(t, '}');
  }

  /** The revision route's extraction: clean the reply, then slice it from brace to brace. It is
      refused exactly when the cleaned reply lacks a brace kind; otherwise, with the braces in order,
      it is the piece of the cleaned reply from the first `{` to the last `}`. */
  function Extract(reply: string): (r: Extraction)
    ensures r.NoJson? <==> !HasChar(Clean(reply), '{') || !HasChar(Clean(reply), '}')
    ensures r.Extracted? ==> !Contains(r.json, Backticks)
    ensures r.Extracted? && OpensBeforeCloses(Clean(reply)) ==>
      && Framed(r.json)
      && exists k :: 0 <= k <= |Clean(reply)| && SliceAt(Clean(reply), k, r.json)
           && !HasChar(Clean(reply)[..k], '{') && !HasChar(Clean(reply)[k + |r.json|..], '}')
    ensures r.Extracted? && !OpensBeforeCloses(Clean(reply)) ==> BraceFree(r.json)
  {
    SlicedKeepsNoBackticks(Clean(reply));
    SliceBraces(Clean(reply))
  }

  lemma SlicedKeepsNoBackticks(c: string)
    requires !Contains(c, Backticks)
    ensures SliceBraces(c).Extracted? ==> !Contains(SliceBraces(c).json, Backticks)
  {
    var r := SliceBraces(c);
    if r.Extracted? {
      var k :| 0 <= k <= |c| && SliceAt(c, k, r.json);
      SliceKeepsAbsence(c, k, r.json, Backticks);
    }
  }

  lemma SliceOfBraceFree(s: string, k: int, t: string)
    requires SliceAt(s, k, t) && BraceFree(s)
    ensures BraceFree(t)
  {
    forall i | 0 <= i < |t|
      ensures t[i] != '{' && t[i] != '}'
    {
      assert t[i] == s[k + i];
    }
  }

  /** Extracting again from extracted text gives the same text back when it runs from `{` to `}`;
      the brace-free text of a reply whose braces come the wrong way round is refused the second
      time. */
  lemma ExtractIdempotent(reply: string)
    ensures Extract(reply).Extracted? ==> var t := Extract(reply).json;
      Extract(t) == if Framed(t) then Extracted(t) else NoJson
  {
    if Extract(reply).Extracted? {
      var t := Extract(reply).json;
      if Framed(t) {
        ExtractFramed(t);
      } else {
        assert BraceFree(t);
        ExtractBraceFree(t);
      }
    }
  }

  lemma ExtractFramed(t: string)
    requires Framed(t) && !Contains(t, Backticks)
    ensures Extract(t) == Extracted(t)
  {
    CleanFixedPoint(t);
    SliceBracesOfFramed(t);
  }

  lemma SliceBracesOfFramed(t: string)
    requires Framed(t)
    ensures SliceBraces(t) == Extracted(t)
  {
    assert IndexOf(t, '{') == Some(0);
    assert LastIndexOf(t, '}') == Some(|t| - 1);
    assert t[0..|t|] == t;
    assert Substring(t, 0, |t| - 1 + 1) == t;
  }

  lemma ExtractBraceFree(t: string)
    requires BraceFree(t) && !Contains(t, Backticks)
    ensures Extract(t) == NoJson
  {
    AbsenceOfPrefix(t, Backticks, JsonFence);
    StripFenceIdentity(t, JsonFence);
    StripFenceIdentity(t, Backticks);
    var ct := Clean(t);
    assert ct == Trim(t);
    var k :| SliceAt(t, k, ct) && AllWhitespace(t[..k]) && AllWhitespace(t[k + |ct|..]);
    SliceOfBraceFree(t, k, ct);
  }
}

=== FILE: roadmap_types.dfy ===
/** The shape of a generated training plan: weeks of days of exercises. The plan is whatever the
    AI replied with; nothing checks that a parsed reply really has this shape. */
module RoadmapTypes {

  datatype Exercise = Exercise(name: string, weight: real, reps: int, sets: int, rest: int)

  datatype Day = Day(dayIndex: int, menu: seq<Exercise>)

  datatype Week = Week(week: int, days: seq<Day>)

  datatype RoadmapData = RoadmapData(
    explanation: string,
    totalWeeks: int,
    frequencyPerWeek: int,
    roadmap: seq<Week>)

  /** The number of training days the plan actually lists. */
  function ScheduledDays(weeks: seq<Week>): nat {
    if |weeks| == 0 then 0 else |weeks[0].days| + ScheduledDays(weeks[1..])
  }

  /** A plan whose week list has `totalWeeks` entries of `frequencyPerWeek` days each. */
  predicate Regular(r: RoadmapData) {
    && |r.roadmap| == r.totalWeeks
    && forall i :: 0 <= i < |r.roadmap| ==> |r.roadmap[i].days| == r.frequencyPerWeek
  }

  /** The "total training sessions" figure the plan and revision pages display: the plan's own
      headline numbers multiplied, whatever the week list holds. */
  function TotalSessions(r: RoadmapData): int {
    r.totalWeeks * r.frequencyPerWeek
  }

  lemma {:induction false} ScheduledDaysOfUniformWeeks(weeks: seq<Week>, perWeek: int)
    requires forall i :: 0 <= i < |weeks| ==> |weeks[i].days| == perWeek
    ensures ScheduledDays(weeks) == |weeks| * perWeek
  {
    if |weeks| > 0 {
      ScheduledDaysOfUniformWeeks(weeks[1..], perWeek);
    }
  }

  /** For a regular plan the displayed total is the number of listed training days. */
  lemma TotalSessionsCountsDays(r: RoadmapData)
    requires Regular(r)
    ensures TotalSessions(r) == ScheduledDays(r.roadmap)
  {
    ScheduledDaysOfUniformWeeks(r.roadmap, r.frequencyPerWeek);
  }

  /** The displayed total can differ from the listed days: a one-week plan that announces three
      sessions a week but lists a single day. */
  lemma TotalSessionsIsNotChecked()
    ensures var r := RoadmapData("", 1, 3, [Week(1, [Day(1, [])])]);
      TotalSessions(r) == 3 && ScheduledDays(r.roadmap) == 1
  {
    var r := RoadmapData("", 1, 3, [Week(1, [Day(1, [])])]);
    assert ScheduledDays(r.roadmap) == 1 + ScheduledDays([]);
  }
}

=== FILE: store.dfy ===
/** The three tables the roadmap code reads and writes (`users`, `roadmaps`, `workout_log`), as an
    in-memory value, and the queries it issues against them. */
module Store {
  import opened Optional
  import opened RoadmapTypes

  type UserId = string

  /** A `users` row. The numeric columns hold the text the profile form collected; the conversion
      to numbers is not modelled. */
  datatype ProfileRow = ProfileRow(
    id: UserId,
    name: string,
    gender: string,
    age: string,
    height: string,
    weight: string,
    benchPress: string,
    squat: string,
    deadlift: string)

  /** A `roadmaps` row: `user_id`, `goal_text`, `menu_json`, `is_active`. */
  datatype RoadmapRow = RoadmapRow(userId: UserId, goalText: string, menu: RoadmapData, isActive: bool)

  /** A `workout_log` row. `weight` is the text JavaScript renders for the stored weight;
      `createdAt` is the row's timestamp. */
  datatype LogRow = LogRow(
    userId: UserId,
    exerciseName: string,
    weight: string,
    reps: int,
    week: int,
    day: int,
    createdAt: int)

  datatype Database = Database(users: seq<ProfileRow>, roadmaps: seq<RoadmapRow>, logs: seq<LogRow>)

  function ProfileFor(uid: UserId): ProfileRow -> bool {
    (p: ProfileRow) => p.id == uid
  }

  function ActiveFor(uid: UserId): RoadmapRow -> bool {
    (row: RoadmapRow) => row.userId == uid && row.isActive
  }

  /** `users.select('*').eq('id', uid).single()`. */
  function ProfileOf(users: seq<ProfileRow>, uid: UserId): (r: Option<ProfileRow>)
    ensures r.Some? ==> r.value in users && r.value.id == uid
    ensures r.Some? <==> |Filter(users, ProfileFor(uid))| == 1
  {
    Single(Filter(users, ProfileFor(uid)))
  }

  /** The user's rows with `is_active` set. */
  function ActiveRowsOf(t: seq<RoadmapRow>, uid: UserId): seq<RoadmapRow> {
    Filter(t, ActiveFor(uid))
  }

  /** `roadmaps.select(..).eq('user_id', uid).eq('is_active', true).single()`: the active plan,
      provided the user has exactly one. */
  function ActiveRoadmapOf(t: seq<RoadmapRow>, uid: UserId): (r: Option<RoadmapRow>)
    ensures r.Some? ==> r.value in t && r.value.userId == uid && r.value.isActive
    ensures r.Some? <==> |ActiveRowsOf(t, uid)| == 1
  {
    Single(ActiveRowsOf(t, uid))
  }

  /** `.single()` counts rows, not distinct rows: a user whose active row appears twice has no
      active plan as far as the routes can tell. */
  lemma DuplicateActiveRowsHideThePlan(row: RoadmapRow)
    requires row.isActive
    ensures |ActiveRowsOf([row, row], row.userId)| == 2
    ensures ActiveRoadmapOf([row, row], row.userId).None?
  {
    FilterMultiplicity([row, row], ActiveFor(row.userId));
    assert multiset([row, row])[row] == 2;
  }

  predicate NewestFirst(xs: seq<LogRow>) {
    forall i, j :: 0 <= i < j < |xs| ==> xs[i].createdAt >= xs[j].createdAt
  }

  /** Places `x` in front of the first row that is not newer than it. */
  function InsertByTime(x: LogRow, xs: seq<LogRow>): (r: seq<LogRow>)
    requires NewestFirst(xs)
    ensures NewestFirst(r)
    ensures multiset(r) == multiset(xs) + multiset{x}
    ensures |r| > 0 && (r[0] == x || (|xs| > 0 && r[0] == xs[0]))
  {
    if |xs| == 0 || xs[0].createdAt <= x.createdAt then [x] + xs
    else
      var rest := InsertByTime(x, xs[1..]);
      assert xs == [xs[0]] + xs[1..];
      assert multiset(xs) == multiset{xs[0]} + multiset(xs[1..]);
      [xs[0]] + rest
  }

  /** The rows ordered by `created_at`, newest first. */
  function SortNewestFirst(xs: seq<LogRow>): (r: seq<LogRow>)
    ensures NewestFirst(r)
    ensures multiset(r) == multiset(xs)
  {
    if |xs| == 0 then []
    else
      assert xs == [xs[0]] + xs[1..];
      InsertByTime(xs[0], SortNewestFirst(xs[1..]))
  }

  function RecentFor(uid: UserId, cutoff: int): LogRow -> bool {
    (log: LogRow) => log.userId == uid && log.createdAt >= cutoff
  }

  /** `workout_log.select('*').eq('user_id', uid).gte('created_at', cutoff)
      .order('created_at', {ascending: false})`: exactly the user's logs from the cutoff on,
      newest first. */
  function RecentLogs(logs: seq<LogRow>, uid: UserId, cutoff: int): (r: seq<LogRow>)
    ensures NewestFirst(r)
    ensures multiset(r) == multiset(Filter(logs, RecentFor(uid, cutoff)))
    ensures forall i :: 0 <= i < |r| ==> r[i] in logs && r[i].userId == uid && r[i].createdAt >= cutoff
    ensures forall i :: 0 <= i < |logs| && logs[i].userId == uid && logs[i].createdAt >= cutoff ==> logs[i] in r
  {
    var picked := Filter(logs, RecentFor(uid, cutoff));
    var r := SortNewestFirst(picked);
    SameMembers(r, picked);
    assert forall x :: x in picked ==> x in logs && RecentFor(uid, cutoff)(x);
    assert forall x :: RecentFor(uid, cutoff)(x) ==> x.userId == uid && x.createdAt >= cutoff;
    r
  }

  lemma SameMembers(a: seq<LogRow>, b: seq<LogRow>)
    requires multiset(a) == multiset(b)
    ensures forall x :: x in a <==> x in b
  {
    forall x ensures x in a <==> x in b {
      assert x in a <==> x in multiset(a);
      assert x in b <==> x in multiset(b);
    }
  }
}

=== FILE: text.dfy ===
/** String operations of JavaScript that the roadmap code relies on, on `seq<char>`:
    `trim`, global `replace` of a fence pattern, `indexOf`/`lastIndexOf` of one character,
    `substring`, `join` and number-to-text for integers. */
module Text {
  import opened Optional

  /** White space and line terminators as JavaScript's `String.prototype.trim` removes them:
      tab, line tabulation, form feed, space, no-break space, zero-width no-break space, the
      Unicode space separators, line feed, carriage return, line and paragraph separator. */
  predicate IsJsWhitespace(c: char) {
    || c == '\t' || c == '\n' || c == '\U{000B}' || c == '\U{000C}' || c == '\r' || c == ' '
    || c == '\U{00A0}' || c == '\U{1680}' || ('\U{2000}' <= c <= '\U{200A}')
    || c == '\U{2028}' || c == '\U{2029}' || c == '\U{202F}' || c == '\U{205F}'
    || c == '\U{3000}' || c == '\U{FEFF}'
  }

  predicate AllWhitespace(s: string) {
    forall i :: 0 <= i < |s| ==> IsJsWhitespace(s[i])
  }

  /** `s` neither begins nor ends with white space: `trim` leaves it alone. */
  predicate Trimmed(s: string) {
    |s| == 0 || (!IsJsWhitespace(s[0]) && !IsJsWhitespace(s[|s| - 1]))
  }

  /** The first index from `i` on that does not hold white space (`|s|` when there is none). */
  function SkipWhitespace(s: string, i: nat): (j: nat)
    requires i <= |s|
    ensures i <= j <= |s|
    ensures forall m :: i <= m < j ==> IsJsWhitespace(s[m])
    ensures j < |s| ==> !IsJsWhitespace(s[j])
    ensures i < |s| && !IsJsWhitespace(s[i]) ==> j == i
    decreases |s| - i
  {
    if i < |s| && IsJsWhitespace(s[i]) then SkipWhitespace(s, i + 1) else i
  }

  /** The end of `s[lo..j]` once its trailing white space is dropped. */
  function BackOverWhitespace(s: string, lo: nat, j: nat): (e: nat)
    requires lo <= j <= |s|
    ensures lo <= e <= j
    ensures forall m :: e <= m < j ==> IsJsWhitespace(s[m])
    ensures e > lo ==> !IsJsWhitespace(s[e - 1])
    ensures j > lo && !IsJsWhitespace(s[j - 1]) ==> e == j
    decreases j
  {
    if j > lo && IsJsWhitespace(s[j - 1]) then BackOverWhitespace(s, lo, j - 1) else j
  }

  /** JavaScript's `s.trim()`: a contiguous piece of `s` that is framed by white space in `s`
      and itself neither begins nor ends with white space. */
  function Trim(s: string): (r: string)
    ensures Trimmed(r)
    ensures exists k :: SliceAt(s, k, r) && AllWhitespace(s[..k]) && AllWhitespace(s[k + |r|..])
    ensures Trimmed(s) ==> r == s
  {
    var a := SkipWhitespace(s, 0);
    var e := BackOverWhitespace(s, a, |s|);
    TrimFrame(s, a, e);
    s[a..e]
  }

  lemma TrimFrame(s: string, a: nat, e: nat)
    requires a == SkipWhitespace(s, 0) && e == BackOverWhitespace(s, a, |s|)
    ensures Trimmed(s[a..e])
    ensures SliceAt(s, a, s[a..e]) && AllWhitespace(s[..a]) && AllWhitespace(s[e..])
    ensures Trimmed(s) ==> s[a..e] == s
  {
    var r := s[a..e];
    assert forall i :: 0 <= i < |r| ==> r[i] == s[a + i];
    var after := s[e..];
    assert forall i :: 0 <= i < |after| ==> after[i] == s[e + i];
    if Trimmed(s) && |s| > 0 {
      assert a == 0;
      assert s[..|s|] == s;
    }
  }

  /** `t` occurs in `s` starting at index `k`. */
  predicate SliceAt(s: string, k: int, t: string) {
    0 <= k && k + |t| <= |s| && forall i :: 0 <= i < |t| ==> s[k + i] == t[i]
  }

  /** `pattern` occurs somewhere in `s`: it is a contiguous piece of `s`. */
  predicate Contains(s: string, pattern: string) {
    exists k :: 0 <= k <= |s| && SliceAt(s, k, pattern)
  }

  predicate HasChar(s: string, c: char) {
    exists i :: 0 <= i < |s| && s[i] == c
  }

  /** A piece of a string that does not contain `pattern` does not contain it either. */
  lemma SliceKeepsAbsence(s: string, k: int, t: string, pattern: string)
    requires SliceAt(s, k, t)
    requires !Contains(s, pattern)
    ensures !Contains(t, pattern)
  {
    forall j | 0 <= j <= |t|
      ensures !SliceAt(t, j, pattern)
    {
      assert !SliceAt(s, k + j, pattern);
    }
  }

  /** A string without `pattern` does not contain any longer pattern that begins with it. */
  lemma AbsenceOfPrefix(s: string, pattern: string, longer: string)
    requires pattern <= longer
    requires !Contains(s, pattern)
    ensures !Contains(s, longer)
  {
    forall k | 0 <= k <= |s|
      ensures !SliceAt(s, k, longer)
    {
      assert !SliceAt(s, k, pattern);
    }
  }

  /** JavaScript's `s.replace(/<fence>\n?/g, '')`: scanning from the left, every occurrence of
      `fence` is removed together with one line feed directly after it, if there is one; the scan
      resumes after the removed text, so occurrences never overlap. */
  function StripFence(s: string, fence: string): (r: string)
    requires |fence| > 0
    ensures |r| <= |s|
    decreases |s|
  {
    if |fence| <= |s| && s[..|fence|] == fence then
      var rest := s[|fence|..];
      if |rest| > 0 && rest[0] == '\n' then StripFence(rest[1..], fence) else StripFence(rest, fence)
    else if |s| == 0 then ""
    else [s[0]] + StripFence(s[1..], fence)
  }

  /** Text in which no occurrence of `fence` begins is copied through unchanged. */
  lemma {:induction false} StripFenceKeepsPrefix(a: string, b: string, fence: string)
    requires |fence| > 0
    requires forall k :: 0 <= k < |a| ==> !SliceAt(a + b, k, fence)
    ensures StripFence(a + b, fence) == a + StripFence(b, fence)
  {
    if |a| > 0 {
      var s := a + b;
      assert !SliceAt(s, 0, fence);
      assert s[1..] == a[1..] + b;
      forall k | 0 <= k < |a[1..]|
        ensures !SliceAt(a[1..] + b, k, fence)
      {
        assert !SliceAt(s, k + 1, fence);
        if k + |fence| <= |s[1..]| {
          assert s[k + 1..k + 1 + |fence|] == (a[1..] + b)[k..k + |fence|];
        }
      }
      StripFenceKeepsPrefix(a[1..], b, fence);
    } else {
      assert a + b == b;
    }
  }

  /** Text that does not contain `fence` is left as it is. */
  lemma StripFenceIdentity(s: string, fence: string)
    requires |fence| > 0
    requires !Contains(s, fence)
    ensures StripFence(s, fence) == s
  {
    assert s + "" == s;
    StripFenceKeepsPrefix(s, "", fence);
  }

  const Backticks: string := "```"

  /** Removing every "```" leaves no "```": the removal cannot glue backticks together into a new
      run, because a kept backtick is never directly followed by a removed run. */
  lemma {:induction false} StripBackticksRemovesAll(s: string)
    ensures !Contains(StripFence(s, Backticks), Backticks)
    decreases |s|
  {
    var out := StripFence(s, Backticks);
    if |Backticks| <= |s| && s[..|Backticks|] == Backticks {
      var rest := s[|Backticks|..];
      if |rest| > 0 && rest[0] == '\n' {
        StripBackticksRemovesAll(rest[1..]);
      } else {
        StripBackticksRemovesAll(rest);
      }
    } else if |s| > 0 {
      var tail := StripFence(s[1..], Backticks);
      assert out == [s[0]] + tail;
      StripBackticksRemovesAll(s[1..]);
      forall k | 0 <= k <= |out|
        ensures !SliceAt(out, k, Backticks)
      {
        if 0 < k && k + 3 <= |out| {
          assert tail[k - 1..k - 1 + 3] == out[k..k + 3];
          assert !SliceAt(tail, k - 1, Backticks);
        }
      }
    }
  }

  /** The index of the first `c` in `s` (JavaScript's `indexOf`, with -1 as `None`). */
  function IndexOf(s: string, c: char): (r: Option<nat>)
    ensures r.None? <==> !HasChar(s, c)
    ensures r.Some? ==> r.value < |s| && s[r.value] == c && forall j :: 0 <= j < r.value ==> s[j] != c
  {
    if |s| == 0 then None
    else if s[0] == c then Some(0)
    else match IndexOf(s[1..], c)
      case None => None
      case Some(i) => Some(i + 1)
  }

  /** The index of the last `c` in `s` (JavaScript's `lastIndexOf`, with -1 as `None`). */
  function LastIndexOf(s: string, c: char): (r: Option<nat>)
    ensures r.None? <==> !HasChar(s, c)
    ensures r.Some? ==> r.value < |s| && s[r.value] == c && forall j :: r.value < j < |s| ==> s[j] != c
  {
    if |s| == 0 then None
    else if s[|s| - 1] == c then Some(|s| - 1)
    else LastIndexOf(s[..|s| - 1], c)
  }

  function Clamp(i: int, n: nat): (r: nat)
    ensures r <= n
  {
    if i < 0 then 0 else if i > n then n else i
  }

  /** JavaScript's `s.substring(start, end)`: both bounds are clamped to the string, and when
      the start lies after the end the two are swapped. */
  function Substring(s: string, start: int, end: int): (r: string)
    ensures Contains(s, r)
    ensures 0 <= start <= end <= |s| ==> r == s[start..end]
  {
    var a := Clamp(start, |s|);
    var b := Clamp(end, |s|);
    var r := if a <= b then s[a..b] else s[b..a];
    assert if a <= b then SliceAt(s, a, r) else SliceAt(s, b, r);
    r
  }

  lemma SubstringSwaps(s: string, start: int, end: int)
    ensures Substring(s, start, end) == Substring(s, end, start)
  {
  }

  /** JavaScript's `xs.join(sep)`. */
  function Join(xs: seq<string>, sep: string): string {
    if |xs| == 0 then ""
    else if |xs| == 1 then xs[0]
    else xs[0] + sep + Join(xs[1..], sep)
  }

  /** The pieces of `s` between occurrences of `c` (JavaScript's `s.split(c)` for one character). */
  function Split(s: string, c: char): (r: seq<string>)
    ensures |r| > 0
  {
    if |s| == 0 then [""]
    else
      var rest := Split(s[1..], c);
      if s[0] == c then [""] + rest else [[s[0]] + rest[0]] + rest[1..]
  }

  lemma {:induction false} SplitWithout(s: string, c: char)
    requires !HasChar(s, c)
    ensures Split(s, c) == [s]
  {
    if |s| > 0 {
      SplitWithout(s[1..], c);
      assert [s[0]] + s[1..] == s;
    }
  }

  lemma {:induction false} SplitAfter(a: string, c: char, b: string)
    requires !HasChar(a, c)
    ensures Split(a + [c] + b, c) == [a] + Split(b, c)
  {
    if |a| == 0 {
      assert a + [c] + b == [c] + b;
      assert ([c] + b)[1..] == b;
    } else {
      assert (a + [c] + b)[1..] == a[1..] + [c] + b;
      SplitAfter(a[1..], c, b);
      assert [a[0]] + a[1..] == a;
    }
  }

  /** Joining lines that contain no `c` with `c` and splitting the result at `c` gives the lines back. */
  lemma {:induction false} SplitJoin(xs: seq<string>, c: char)
    requires |xs| > 0
    requires forall i :: 0 <= i < |xs| ==> !HasChar(xs[i], c)
    ensures Split(Join(xs, [c]), c) == xs
  {
    if |xs| == 1 {
      SplitWithout(xs[0], c);
    } else {
      var rest := xs[1..];
      assert forall i :: 0 <= i < |rest| ==> rest[i] == xs[i + 1];
      SplitJoin(rest, c);
      assert Join(xs, [c]) == xs[0] + [c] + Join(rest, [c]);
      SplitAfter(xs[0], c, Join(rest, [c]));
      assert xs == [xs[0]] + rest;
    }
  }

  predicate IsDigit(c: char) {
    '0' <= c <= '9'
  }

  predicate AllDigits(s: string) {
    forall i :: 0 <= i < |s| ==> IsDigit(s[i])
  }

  /** The number a decimal digit stands for. */
  function DigitValue(c: char): (v: nat)
    requires IsDigit(c)
    ensures v < 10
  {
    c as int - '0' as int
  }

  /** The number a run of decimal digits stands for, most significant digit first. */
  function DecimalValue(s: string): nat
    requires AllDigits(s)
  {
    if |s| == 0 then 0 else 10 * DecimalValue(s[..|s| - 1]) + DigitValue(s[|s| - 1])
  }

  function DigitChar(d: nat): (r: char)
    requires d < 10
    ensures IsDigit(r) && DigitValue(r) == d
  {
    ('0' as int + d) as char
  }

  /** The decimal digits of `n`, without leading zeros (JavaScript's rendering of a whole number). */
  function NatToString(n: nat): (r: string)
    ensures |r| > 0 && AllDigits(r)
    ensures DecimalValue(r) == n
    ensures |r| == 1 || r[0] != '0'
    decreases n
  {
    if n < 10 then
      var r := [DigitChar(n)];
      assert r[..0] == [];
      r
    else
      var front := NatToString(n / 10);
      var r := front + [DigitChar(n % 10)];
      assert r[..|r| - 1] == front;
      assert |front| == 1 ==> DecimalValue(front) == DigitValue(front[0]) by {
        if |front| == 1 {
          assert front[..0] == [];
        }
      }
      r
  }

  /** JavaScript's rendering of a whole number: a minus sign exactly when it is negative, then the
      decimal digits of its magnitude. */
  function IntToString(n: int): (r: string)
    ensures |r| > 0
    ensures r[0] == '-' <==> n < 0
    ensures forall i :: 0 < i < |r| ==> IsDigit(r[i])
    ensures n < 0 ==> AllDigits(r[1..]) && DecimalValue(r[1..]) == -n
    ensures n >= 0 ==> AllDigits(r) && DecimalValue(r) == n
  {
    if n < 0 then
      var digits := NatToString(-n);
      assert ("-" + digits)[1..] == digits;
      "-" + digits
    else NatToString(n)
  }
}
